=== FILE: README.md ===
# Guia de Carreira chat UI — a Dafny model

This project models the client-side logic of the "Guia de Carreira" chat front end. It is a
React app where a visitor registers a name and an e-mail and then chats with a bot that answers
with canned phrases. The model covers five components:

- the chat window `ChatInterface`: the seed greeting, sending a message, the timed bot reply,
  the typing indicator, the header initials and the class-name joiner;
- the message composer `InputChatInterface`: the draft text, its count and per-letter display,
  the debounced typing flag, the send gate, Enter-to-send, the input's length cap and the
  counter colour;
- the sign-up form `UserInfoForm`: the validators, the per-field errors, the submit gate, the
  submit lifecycle that writes the identity to `localStorage` and ends by handing the fields to
  `onSubmit`, and the hour-of-day greeting;
- the profile dialog `UserProfile`: its initials algorithm and its greeting;
- the message bubble `ChatBubble`: its render branch, the text its copy button copies, and its
  `isUser`/`isCopied` flags.

The model is built from immutable states and pure step functions. Each component's event
handlers are functions from a state to a state. Sequences of user actions and timer firings
are folded by `Run`/`Drive`, and invariants are proved over every such sequence. Clocks, timers,
`Math.random()` and `localStorage` are not called. The hour becomes a parameter, a timer firing
becomes an event, the random phrase index becomes an event argument, and storage becomes a
state field.

JavaScript's string primitives are modelled in `Text`:
- `trim` and the regex class `\s`, over the exact ECMAScript whitespace set;
- `split` on one character, and `join`;
- `toUpperCase`, `slice` and `padEnd`.

`split`/`join` come with their round-trip lemmas.

Behaviour of the code a reader might not expect, which the model keeps:
- the composer passes the untrimmed text to `onSend`; only the gate looks at the trimmed text;
- the input accepts 76 characters (`maxChars + 1`), one more than can be sent;
- nothing stops a send while a reply is pending;
- copying an HTML message copies the raw markup;
- the chat answers only with the four canned phrases, after a fixed delay, and a message has no
  status of its own;
- every render of the chat passes the composer a new `onChange` function, which runs the
  composer's text effect again: the typing flag is raised again when the draft is non-empty,
  and `onChange` is called again with the same text;
- once the sign-up form gives way to the chat, it passes `onSubmit` the fields as they are at
  that render, which need not be the validated identity it has just stored.

## Model

| member | source | states |
|---|---|---|
| Text.Trim | components/ui/UserInfoForm.tsx:38 | `trim` gives the infix between the leading and trailing whitespace runs; it is empty exactly when the string is all whitespace, and otherwise starts and ends with non-whitespace |
| Text.Split | components/ui/UserProfile.tsx:38 | `split(' ')` always gives at least one piece, and no piece holds the separator |
| Text.JoinSplit | components/ui/ChatInterface.tsx:120-123 | joining the pieces of a split with the same separator gives the original string back |
| Text.SplitJoin | components/ui/ChatInterface.tsx:120-123 | splitting a join of separator-free pieces gives the pieces back |
| Text.SplitSingle | components/ui/UserProfile.tsx:38-42 | the split has a single piece exactly when the separator does not occur |
| Text.SplitLast | components/ui/UserProfile.tsx:42 | the last piece is the text after the last separator |
| Text.SplitFirst | components/ui/UserProfile.tsx:41 | the first piece starts with the string's first character when that is not the separator |
| Text.Upper | components/ui/ChatInterface.tsx:124 | `toUpperCase` keeps the length, leaves every character that is not a lower-case letter where it was, and leaves no letter that `IsLower` accepts (ASCII `a`-`z` and U+00E0 to U+00FE except U+00F7) |
| Text.UpperIdempotent | components/ui/UserProfile.tsx:45-47 | upper-casing an already upper-cased string changes nothing |
| Text.Take | components/ui/ChatInterface.tsx:125 | `slice(0, n)` is the prefix of length min(n, length) |
| Text.PadEnd | components/ui/UserProfile.tsx:47 | `padEnd(n, fill)` keeps the string as a prefix, reaches length n when shorter and the fill is non-empty, and repeats the fill cyclically after it |
| Classes.Kept | components/ui/ChatInterface.tsx:22-24 | `filter(Boolean)` drops the falsy arguments: the result holds no empty name, and is empty exactly when no argument is truthy |
| Classes.JoinClasses | components/ui/InputChatInterface.tsx:8-10 | the class string is empty exactly when no argument is truthy |
| Classes.KeptAppend | components/ui/ChatInterface.tsx:22-24 | filtering distributes over concatenated argument lists |
| Classes.JoinClassesAppend | components/ui/ChatInterface.tsx:22-24 | the class string of two argument lists is the two class strings glued with one space, or just one of them when the other is empty |
| Classes.JoinClassesUnit | components/ui/InputChatInterface.tsx:8-10 | a single class name comes back unchanged, and a leading falsy argument has no effect |
| ChatLog.Seed | components/ui/ChatInterface.tsx:44-58 | with a stored identity the log holds one bot greeting with id 1 that is the opening "Olá ", then the user's name, then the fixed closing of line 53; without one the log is empty; either way no reply is pending |
| ChatLog.Send | components/ui/ChatInterface.tsx:97-107 | a blank text changes nothing; otherwise the untrimmed text is appended as a user message with id length+1, and the next id is reserved and shown as typing; from an idle chat it leads to a chat awaiting exactly one reply; reachability is preserved |
| ChatLog.Reply | components/ui/ChatInterface.tsx:108-115 | the oldest reply timer appends a bot message with the id it reserved and one of the four phrases, then clears the typing slot; awaiting one reply leads back to idle with consecutive ids; with nothing pending nothing fires |
| ChatLog.Step | components/ui/ChatInterface.tsx:101-113 | every event leaves the earlier log as a prefix and adds at most one message |
| ChatLog.RunAppendsOnly | components/ui/ChatInterface.tsx:101-113 | over any sequence of sends and replies, every earlier message stays in place, unchanged |
| ChatLog.RunStaysReachable | components/ui/ChatInterface.tsx:97-116 | over any interleaving, ids stay at most the log length, reserved ids at most one more, and the typing slot is exactly one more |
| ChatLog.OneTurnKeepsIds | components/ui/ChatInterface.tsx:100-112 | when the user waits for each reply, ids equal positions (so they are unique and increasing), and user and bot messages alternate |
| ChatLog.SecondSendCollides | components/ui/ChatInterface.tsx:100-112 | a send while a reply is pending gives the user's message the id reserved for that reply, and after the reply two messages share it |
| ChatLog.DoubleSendExample | components/ui/ChatInterface.tsx:97-115 | sending "a" then "b" within the reply delay yields ids 1, 2, 2, 3 |
| ChatLog.TypingNeverMatches | components/ui/ChatInterface.tsx:189 | in every reachable state, no message in the log has the typing id, so no avatar is ever marked as typing |
| ChatLog.GuardedSend | components/ui/ChatInterface.tsx:97-107 | the corrected send refuses a send while a reply is pending, and otherwise is the original send |
| ChatLog.GuardedRunKeepsIds | components/ui/ChatInterface.tsx:97-116 | with the guard, ids stay unique and senders alternate under every interleaving |
| ChatLog.Rows | components/ui/ChatInterface.tsx:189 | the corrected rendering shows the log followed, while a reply is pending, by one bot placeholder row |
| ChatLog.PlaceholderShowsTyping | components/ui/ChatInterface.tsx:106 | in the corrected rendering exactly one row, the placeholder, matches the typing id |
| Initials.HeadsOfSplit | components/ui/ChatInterface.tsx:120-123 | the first characters of the non-empty pieces of `split(' ')` are exactly the characters that start a word, in order |
| Initials.ChatInitials | components/ui/ChatInterface.tsx:118-126 | "U" without a name; otherwise the upper-cased first letters of the first two words, as many as there are (none for a name of spaces) |
| Initials.ProfileInitials | components/ui/UserProfile.tsx:35-48 | the silhouette without a name; a name of whitespace only throws; any other name gives exactly two characters |
| Initials.ProfileInitialsOneWord | components/ui/UserProfile.tsx:41-47 | a one-word name gives its upper-cased first letter twice |
| Initials.ProfileInitialsManyWords | components/ui/UserProfile.tsx:41-47 | a name of several words gives the upper-cased first letters of its first and last words |
| Initials.WordStartsNonEmpty | components/ui/ChatInterface.tsx:120-123 | a string with a character other than a space has a word start |
| Greeting.FormPartOf | components/ui/UserInfoForm.tsx:21-30 | morning exactly for 5..11, afternoon exactly for 12..17, night at every other hour |
| Greeting.ProfilePartOf | components/ui/UserProfile.tsx:23-32 | morning 5..11, afternoon 12..16, evening 17..20, night at every other hour, each as an if-and-only-if |
| Greeting.PartsAgreeExceptEvening | components/ui/UserProfile.tsx:23-32 | the two greetings agree on morning; they differ exactly at 17:00 (afternoon vs evening) and 18:00 to 20:59 (night vs evening) |
| Greeting.PartsFollowTheDay | components/ui/UserInfoForm.tsx:21-30 | from 05:00 on, a later hour never falls in an earlier part of the day, in either component |
| Composer.TextEffect | components/ui/InputChatInterface.tsx:29-53 | the effect makes the count and display agree with the text and clears the timer `timerRef` named; for a non-empty text exactly one timer is then live, a fresh one that `timerRef` now names, and for the empty text none is; the typing flag is raised exactly for a non-empty text, and the text is reported through `onChange` |
| Composer.StaleTimerKeepsTyping | components/ui/InputChatInterface.tsx:33-41 | after an edit to a non-empty text, the timer of the previous edit coming due leaves the typing flag raised, while the timer of the latest edit lowers it: a debounce, not a throttle |
| Composer.Mount | components/ui/InputChatInterface.tsx:29-53 | a freshly mounted composer is consistent, empty and not typing, and has reported the empty text once |
| Composer.Edit | components/ui/InputChatInterface.tsx:133 | a value longer than `maxChars + 1` is refused; an unchanged value runs nothing; any other value becomes the text and runs the effect, which leaves one live timer exactly when it is non-empty |
| Composer.Fire | components/ui/InputChatInterface.tsx:39-41 | a live timer lowers the typing flag and stops being live; a cleared timer has no effect |
| Composer.Submit | components/ui/InputChatInterface.tsx:65-75 | when the trimmed text is non-empty and within `maxChars`, `onSend` receives the untrimmed text, then the empty text is reported, and the draft, display, typing flag and timers are reset; otherwise nothing happens |
| Composer.KeyDown | components/ui/InputChatInterface.tsx:77-82 | Enter without Shift submits; every other key does nothing |
| Composer.DisabledIffRejected | components/ui/InputChatInterface.tsx:173 | the send button is disabled exactly when pressing it would do nothing |
| Composer.LengthBoundary | components/ui/InputChatInterface.tsx:66 | a non-blank draft of exactly 75 characters can be sent, one of 76 cannot |
| Composer.Apply | components/ui/InputChatInterface.tsx:29-82 | every input keeps the composer consistent, a rerun of the effect after a parent render included, and every text it sends passes the gate |
| Composer.Drive | components/ui/InputChatInterface.tsx:29-82 | any sequence of inputs keeps the composer consistent |
| Composer.SentTextsFitGate | components/ui/InputChatInterface.tsx:66-67 | over any sequence of inputs, every text passed to `onSend` is non-blank and at most 75 characters |
| Composer.LiveAtMostOne | components/ui/InputChatInterface.tsx:33-41 | a consistent composer has at most one live typing timer |
| Composer.SessionInvariant | components/ui/InputChatInterface.tsx:27-82 | from mount on, whatever the edits, timers, key presses, clicks and parent renders, the draft never exceeds 76 characters, at most one typing timer is live, and every sent text fits the gate |
| Composer.CounterBand | components/ui/InputChatInterface.tsx:113-118 | red exactly above 75, orange exactly for 61..75, yellow for 46..60, gray up to 45 |
| Composer.BandMonotone | components/ui/InputChatInterface.tsx:115-118 | the counter colour never gets cooler as the count grows |
| Composer.RedIffOverLimit | components/ui/InputChatInterface.tsx:115 | for a non-blank draft the counter is red exactly when the send button is disabled, that is exactly at 76 characters |
| UserForm.ValidNameIff | components/ui/UserInfoForm.tsx:37-39 | a name is valid exactly when it holds two non-whitespace characters |
| UserForm.IndexOf | components/ui/UserInfoForm.tsx:33 | the position of the first occurrence of a character, or the length when there is none |
| UserForm.EmailPatternIff | components/ui/UserInfoForm.tsx:32-35 | the direct e-mail check accepts exactly the language of `/^[^\s@]+@[^\s@]+\.[^\s@]+$/`, in both directions |
| UserForm.FieldErrors | components/ui/UserInfoForm.tsx:58-70 | a field shows its message exactly when it is non-empty and invalid; an empty field shows none |
| UserForm.HandleSubmit | components/ui/UserInfoForm.tsx:72-81 | with an invalid field nothing changes; otherwise loading is raised and the identity as it is now is captured for the delay |
| UserForm.DelayEnds | components/ui/UserInfoForm.tsx:81-95 | the end of the awaited delay reports success, lowers loading and schedules persisting the captured identity; nothing else changes, so nothing is stored and the form is not yet handed over |
| UserForm.PersistFires | components/ui/UserInfoForm.tsx:85-101 | the persist timer stores the identity captured at submit time and hands over to the chat; the first time, `onSubmit` receives the fields as they are at that render, and later renders pass the same value; nothing else changes, so submits still in flight are kept |
| UserForm.HandOverMayBeInvalid | components/ui/UserInfoForm.tsx:98-101 | a valid submit whose name is cleared during the delay stores the valid identity but hands `onSubmit` the cleared, invalid fields |
| UserForm.PersistFiresStored | components/ui/UserInfoForm.tsx:85-101 | the corrected hand-over passes `onSubmit` the identity just stored, and otherwise acts as the persist timer does |
| UserForm.CorrectedRunHandsOverValid | components/ui/UserInfoForm.tsx:72-101 | with the corrected hand-over, whatever is typed, clicked or timed out, `onSubmit` only ever receives a valid identity |
| UserForm.StepStoresOnlyValid | components/ui/UserInfoForm.tsx:72-96 | every event keeps every captured and stored identity valid; once the form has given way to the chat, edits and clicks do nothing |
| UserForm.RunStoresOnlyValid | components/ui/UserInfoForm.tsx:72-96 | whatever is typed, clicked or timed out, storage only ever receives a valid identity, even when the fields are edited while a submit is in flight |
| UserForm.EnabledMeansNoErrors | components/ui/UserInfoForm.tsx:190 | an enabled submit button never sits next to an error message |
| UserForm.ValidNameHasInitials | components/ui/UserProfile.tsx:35-48 | a name that passed validation gives two profile initials without throwing, and a non-empty chat header |
| ChatBubble.CopyContent | components/ui/ChatBubble.tsx:62-69 | a string is copied verbatim, markup included; an HTML element gives its inner markup, or throws when it has none; any other element gives the empty string; the id is always the message's |
| ChatBubble.CopyMatchesRender | components/ui/ChatBubble.tsx:50-69 | for a string message the copied text is exactly what the bubble renders, in the inner-HTML branch (raw markup) and in the plain branch alike |
| ChatBubble.SideFollowsType | components/ui/ChatBubble.tsx:47 | the bubble's side is decided by the `type` prop alone: the message's sender, text and id, and the copied id, do not change it |
| ChatBubble.AtMostOneCopied | components/ui/ChatBubble.tsx:48 | among messages with distinct ids, at most one bubble shows the copied mark |

## Left out

- Rendering (JSX, Tailwind classes, animations, `scrollIntoView`, icons) and the bounce, focus
  and hover state that only drives animation. None of it decides what is sent or stored.
- Time. `setTimeout` delays are events whose order the caller chooses. `Date().getHours()` is
  the parameter `hour`. `Math.random()` is the phrase index of `ReplyFires`.
- `localStorage` and `JSON.parse`. Storage is a state field. A stored value that fails to parse,
  or has no `name`, is not modelled.
- `geminiService.js`, `AppContainer.tsx` and `app/page.tsx`: they are not part of this model.
- HTML rendering through `dangerouslySetInnerHTML`: the markup is passed along unchanged.
- Characters. Strings are sequences of code points; JavaScript's UTF-16 code units are not
  modelled, so `length`, `[0]` and `slice` differ for characters outside the Basic
  Multilingual Plane.
- Text.Upper: covers ASCII and Latin-1 only. The case mappings that change length (`ß`) or
  leave Latin-1 (`ÿ`) are not modelled.
- The greetings set on focus, blur and submit in the sign-up form, and its success labels.
  They are display text.
- UserForm.DelayEnds: the `catch` branch is left out. The awaited promise never rejects, so the
  branch cannot run.
- Composer.KeyDown: `preventDefault` is not modelled.
- The effect cleanup on unmount, and unmounting in general.
- ChatInterface's effect that watches the draft to trigger a bounce. It only drives animation.
- Initials.ProfileInitials: the contract states the length and the throwing case. The content
  of the initials is stated by `ProfileInitialsOneWord` and `ProfileInitialsManyWords`.
- Composer.Drive: its contract states consistency only. What is sent is stated by
  `SentTextsFitGate`.
- ChatBubble.CopyContent: a message text that is neither a string nor an element (a number,
  `null`) is not modelled.

## Findings

| source | as written | input that shows it | evidently intended | confidence | as-written member | corrected member |
|---|---|---|---|---|---|---|
| components/ui/ChatInterface.tsx:97-115 | a user message takes id `messages.length + 1` and reserves the next id for the bot reply; nothing stops a second send before that reply arrives | with no stored identity, send "a", then "b" within one second; both replies arrive: ids 1, 2, 2, 3 | message ids are unique; a send waits for the pending reply, or ids are not derived from the length | high for the model; not executed | ChatLog.SecondSendCollides | ChatLog.GuardedRunKeepsIds |
| components/ui/ChatInterface.tsx:106-114 | `typingMessageId` is set to the id the reply will carry, and cleared in the same batched update that appends the reply, so `typingMessageId === message.id` (line 189) never holds for a rendered message | any send: during the one-second delay no message has the typing id, and afterwards the id is cleared | the bot avatar shows the typing animation while the reply is pending | medium, assumes React 18 batching; not executed | ChatLog.TypingNeverMatches | ChatLog.PlaceholderShowsTyping |
| components/ui/UserInfoForm.tsx:98-101 | once `submitted` is set, every render calls `onSubmit(userInfo)` with the current fields, while `localStorage` received the identity captured at click time; the fields can be edited during the one-second awaited delay | type a valid name and e-mail, click, clear the name within one second, let both timers fire: storage holds the valid identity and `onSubmit` receives an empty name | `onSubmit` receives the validated identity that was stored | medium, the page in this repository does not mount this form; not executed | UserForm.HandOverMayBeInvalid | UserForm.CorrectedRunHandsOverValid |

=== FILE: chat_bubble.dfy ===
/**
 The message bubble (`ChatBubble`): which rendering branch a message takes, the text its copy
 button hands to `onCopy`, and the derived `isUser` and `isCopied` flags.
 */
module ChatBubble {
  import opened Optional
  import opened Identity

  /** A message's `text`: a string, or a React element. For an element only the markup of its
      `dangerouslySetInnerHTML` prop matters here, absent when the element has no such prop. */
  datatype Content = Str(s: string) | Element(innerHtml: Option<string>)

  /** The bubble's message; the id is a string here. */
  datatype BubbleMsg = BubbleMsg(id: string, text: Content, sender: Sender, isHtml: bool)

  /** What the copy button does: call `onCopy(text, id)`, or throw a `TypeError` while reading
      the markup of an element that has none. */
  datatype Copy = CopyCall(text: string, id: string) | CopyThrows

  /** `copyContent`: a string is copied as it is, markup included when the message is HTML;
      an HTML element gives the markup of its inner-HTML prop; any other element gives the
      empty string. The id passed along is always the message's own. */
  function CopyContent(m: BubbleMsg): (r: Copy)
    ensures r.CopyCall? ==> r.id == m.id
    ensures m.text.Str? ==> r == CopyCall(m.text.s, m.id)
    ensures m.text.Element? && !m.isHtml ==> r == CopyCall([], m.id)
    ensures m.text.Element? && m.isHtml && m.text.innerHtml.Some? ==>
      r == CopyCall(m.text.innerHtml.value, m.id)
    ensures r.CopyThrows? <==> m.text.Element? && m.isHtml && m.text.innerHtml.None?
  {
    match m.text
    case Str(s) => CopyCall(s, m.id)
    case Element(html) =>
      if !m.isHtml then CopyCall([], m.id)
      else if html.Some? then CopyCall(html.value, m.id)
      else CopyThrows
  }

  /** The two branches of `renderContent`: the markup handed to `dangerouslySetInnerHTML`, or
      the text rendered as React renders any child. */
  datatype Rendered = InnerHtml(markup: Content) | AsChild(child: Content)

  /** `renderContent`: the `isHtml` flag alone picks the branch; the text is passed through
      unchanged in both. */
  function RenderContent(m: BubbleMsg): Rendered
  {
    if m.isHtml then InnerHtml(m.text) else AsChild(m.text)
  }

  /** For a string message the copy button hands over exactly what the bubble renders: the raw
      markup in the HTML branch (nothing is stripped) and the plain text otherwise. */
  lemma CopyMatchesRender(m: BubbleMsg)
    requires m.text.Str?
    ensures var r := RenderContent(m);
      CopyContent(m).text == (if r.InnerHtml? then r.markup.s else r.child.s)
  {
  }

  /** `isUser` and `isCopied`, as the bubble derives them from its props. */
  datatype Flags = Flags(isUser: bool, isCopied: bool)

  function BubbleFlags(m: BubbleMsg, kind: Sender, copiedId: Option<string>): Flags
  {
    Flags(kind == User, copiedId == Some(m.id))
  }

  /** The side of the bubble follows the `type` prop alone: the message's own sender, text and
      id do not matter, and neither does which message was copied. */
  lemma SideFollowsType(m1: BubbleMsg, m2: BubbleMsg, kind: Sender, c1: Option<string>, c2: Option<string>)
    ensures BubbleFlags(m1, kind, c1).isUser == BubbleFlags(m2, kind, c2).isUser
    ensures BubbleFlags(m1, User, c1).isUser && !BubbleFlags(m1, Bot, c1).isUser
  {
  }

  /** Among bubbles whose messages have distinct ids, at most one shows the copied mark. */
  lemma AtMostOneCopied(msgs: seq<BubbleMsg>, copiedId: Option<string>, i: nat, j: nat)
    requires forall a, b | 0 <= a < b < |msgs| :: msgs[a].id != msgs[b].id
    requires i < |msgs| && j < |msgs|
    requires BubbleFlags(msgs[i], msgs[i].sender, copiedId).isCopied
    requires BubbleFlags(msgs[j], msgs[j].sender, copiedId).isCopied
    ensures i == j
  {
  }
}

=== FILE: chat_log.dfy ===
/**
 The conversation log of the chat component: the seed greeting, the user's sends, the canned
 bot replies that arrive on a timer, and the `typingMessageId` slot reserved for each reply.

 The reply timer, `Math.random()` and `localStorage` are not modelled as such: a reply is the
 event `ReplyFires(k)` with `k` the phrase `Math.random()` picked, and the stored identity is a
 parameter of `Seed`.
 */
module ChatLog {
  import opened Optional
  import opened Text
  import opened Identity

  datatype Msg = Msg(id: nat, text: string, sender: Sender)

  /** The component's state: the message log, the id shown as typing (`typingMessageId`), and
      the ids that scheduled reply timers have reserved and not yet used, oldest first. Every
      timer has the same delay, so they fire in the order they were scheduled. */
  datatype Chat = Chat(log: seq<Msg>, typingId: Option<nat>, pending: seq<nat>)

  /** The four canned replies (`botResponses`). */
  const BotResponses: seq<string> := [
    "Entendi! \U{1F914} Deixe-me ver o que posso fazer...",
    "Certo! \U{1F44D} Vou procurar a melhor resposta para voc\U{EA}.",
    "A caminho! \U{1F680} J\U{E1} estou buscando informa\U{E7}\U{F5}es relevantes.",
    "Interessante! \U{2728} Vou tentar ajudar da melhor forma poss\U{ED}vel!"
  ]

  /** `Math.floor(Math.random() * botResponses.length)`: an index below 4. */
  type PhraseIndex = k: nat | k < 4

  /** The text around the user's name in the seed greeting. */
  const SeedOpening: string := "Ol\U{E1} "
  const SeedClosing: string := "! Que bom te ver por aqui! \U{1F60A} Como posso ajudar voc\U{EA} hoje?"

  /** Message `i` of the log (0-based) carries the id `i + 1`. */
  ghost predicate Sequential(log: seq<Msg>) {
    forall i | 0 <= i < |log| :: log[i].id == i + 1
  }

  /** Ids strictly increase along the log, so no two messages share one. */
  ghost predicate UniqueIds(log: seq<Msg>) {
    forall i, j | 0 <= i < j < |log| :: log[i].id < log[j].id
  }

  /** Adjacent messages come from different senders. */
  ghost predicate Alternating(log: seq<Msg>) {
    forall i | 0 < i < |log| :: log[i - 1].sender != log[i].sender
  }

  /** No reply is outstanding, and the last message (if any) is the bot's. */
  ghost predicate Idle(c: Chat) {
    && c.pending == []
    && c.typingId == None
    && Sequential(c.log)
    && Alternating(c.log)
    && (c.log == [] || c.log[|c.log| - 1].sender == Bot)
  }

  /** Exactly one reply is outstanding, for the user's message at the end of the log. */
  ghost predicate Awaiting(c: Chat) {
    && c.pending == [|c.log| + 1]
    && c.typingId == Some(|c.log| + 1)
    && Sequential(c.log)
    && Alternating(c.log)
    && c.log != [] && c.log[|c.log| - 1].sender == User
  }

  /** What holds in every reachable state, however the events interleave: every id is at most
      the log's length, every reserved id at most one more, and the typing slot, when set, is
      exactly one more. */
  ghost predicate Reachable(c: Chat) {
    && (forall i | 0 <= i < |c.log| :: c.log[i].id <= |c.log|)
    && (forall i | 0 <= i < |c.pending| :: c.pending[i] <= |c.log| + 1)
    && (c.typingId.Some? ==> c.typingId.value == |c.log| + 1)
  }

  /** The mount effect: with a stored identity, the log holds one bot greeting, with id 1, that
      addresses the user by name, the name standing between the fixed opening and closing of the
      template; without one it is empty. */
  function Seed(stored: Option<UserInfo>): (c: Chat)
    ensures c.typingId == None && c.pending == []
    ensures stored.None? ==> c.log == []
    ensures stored.Some? ==>
      && |c.log| == 1
      && c.log[0].id == 1
      && c.log[0].sender == Bot
      && |c.log[0].text| == |SeedOpening| + |stored.value.name| + |SeedClosing|
      && c.log[0].text[..|SeedOpening|] == SeedOpening
      && c.log[0].text[|SeedOpening|..|SeedOpening| + |stored.value.name|] == stored.value.name
      && c.log[0].text[|SeedOpening| + |stored.value.name|..] == SeedClosing
    ensures Idle(c) && Reachable(c)
  {
    match stored
    case None => Chat([], None, [])
    case Some(info) =>
      var greeting := SeedOpening + info.name + SeedClosing;
      assert greeting[..|SeedOpening|] == SeedOpening;
      assert greeting[|SeedOpening|..|SeedOpening| + |info.name|] == info.name;
      assert greeting[|SeedOpening| + |info.name|..] == SeedClosing;
      Chat([Msg(1, greeting, Bot)], None, [])
  }

  /** `handleSendMessage(text)`: a blank text changes nothing; otherwise the untrimmed text is
      appended as a user message with id `|log| + 1`, the next id is reserved for the reply and
      shown as typing, and the reply timer is scheduled. Nothing stops a send while an earlier
      reply is still outstanding. */
  function Send(c: Chat, text: string): (r: Chat)
    ensures IsBlank(text) ==> r == c
    ensures !IsBlank(text) ==>
      && r.log == c.log + [Msg(|c.log| + 1, text, User)]
      && r.typingId == Some(|c.log| + 2)
      && r.pending == c.pending + [|c.log| + 2]
    ensures Idle(c) && !IsBlank(text) ==> Awaiting(r)
    ensures Reachable(c) ==> Reachable(r)
  {
    if IsBlank(text) then c
    else
      var id := |c.log| + 1;
      AppendKeeps(c.log, Msg(id, text, User));
      Chat(c.log + [Msg(id, text, User)], Some(id + 1), c.pending + [id + 1])
  }

  /** Appending one message keeps the log sequential when it carries the next id, alternating
      when its sender differs from the last one, and within the id bound when its id is at most
      the new length. */
  lemma AppendKeeps(log: seq<Msg>, m: Msg)
    ensures Sequential(log) && m.id == |log| + 1 ==> Sequential(log + [m])
    ensures Alternating(log) && (log == [] || log[|log| - 1].sender != m.sender) ==>
      Alternating(log + [m])
    ensures (forall i | 0 <= i < |log| :: log[i].id <= |log|) && m.id <= |log| + 1 ==>
      forall i | 0 <= i < |log + [m]| :: (log + [m])[i].id <= |log + [m]|
  {
    var l := log + [m];
    assert forall i | 0 <= i < |log| :: l[i] == log[i];
    assert l[|log|] == m;
  }

  /** The oldest reply timer fires: the bot message, with the id that timer reserved and the
      phrase `k`, is appended and the typing slot is cleared. With no timer scheduled nothing
      fires. */
  function Reply(c: Chat, k: PhraseIndex): (r: Chat)
    ensures c.pending == [] ==> r == c
    ensures c.pending != [] ==>
      && r.log == c.log + [Msg(c.pending[0], BotResponses[k], Bot)]
      && r.typingId == None
      && r.pending == c.pending[1..]
    ensures Awaiting(c) ==>
      && Idle(r)
      && r.log[|c.log|].id == c.log[|c.log| - 1].id + 1
      && r.log[|c.log|].text in BotResponses
    ensures Reachable(c) ==> Reachable(r)
  {
    if c.pending == [] then c
    else Chat(c.log + [Msg(c.pending[0], BotResponses[k], Bot)], None, c.pending[1..])
  }

  datatype Event = UserSends(text: string) | ReplyFires(k: PhraseIndex)

  function Step(c: Chat, e: Event): (r: Chat)
    ensures c.log <= r.log && |r.log| <= |c.log| + 1
  {
    match e
    case UserSends(text) => Send(c, text)
    case ReplyFires(k) => Reply(c, k)
  }

  function Run(c: Chat, events: seq<Event>): Chat
    decreases |events|
  {
    if events == [] then c else Run(Step(c, events[0]), events[1..])
  }

  /** The log is append-only: whatever happens, every earlier message stays where it was,
      unchanged. */
  lemma {:induction false} RunAppendsOnly(c: Chat, events: seq<Event>)
    ensures c.log <= Run(c, events).log
    decreases |events|
  {
    if events != [] {
      RunAppendsOnly(Step(c, events[0]), events[1..]);
    }
  }

  /** Every state reached from the seed, whatever the order of sends and replies, satisfies
      `Reachable`. */
  lemma {:induction false} RunStaysReachable(c: Chat, events: seq<Event>)
    requires Reachable(c)
    ensures Reachable(Run(c, events))
    decreases |events|
  {
    if events != [] {
      RunStaysReachable(Step(c, events[0]), events[1..]);
    }
  }

  /** The user sends (non-blank) only when no reply is outstanding. */
  ghost predicate OneTurnAtATime(c: Chat, events: seq<Event>)
    decreases |events|
  {
    events == [] ||
    (&& (events[0].UserSends? && !IsBlank(events[0].text) ==> c.pending == [])
     && OneTurnAtATime(Step(c, events[0]), events[1..]))
  }

  /** Used one turn at a time, the log keeps each message's id equal to its 1-based position,
      so ids are unique and increasing, and user and bot messages alternate. */
  lemma {:induction false} OneTurnKeepsIds(c: Chat, events: seq<Event>)
    requires Idle(c) || Awaiting(c)
    requires OneTurnAtATime(c, events)
    ensures var r := Run(c, events);
      (Idle(r) || Awaiting(r)) && UniqueIds(r.log) && Alternating(r.log)
    decreases |events|
  {
    if events == [] {
      assert Sequential(c.log);
    } else {
      var next := Step(c, events[0]);
      assert Idle(next) || Awaiting(next);
      OneTurnKeepsIds(next, events[1..]);
    }
  }

  /** A non-blank send while a reply is outstanding gives the user's message the very id that
      was reserved for the reply, and once that reply arrives two messages share it. */
  lemma SecondSendCollides(c: Chat, text: string, k: PhraseIndex)
    requires Awaiting(c)
    requires !IsBlank(text)
    ensures Send(c, text).log[|c.log|].id == c.typingId.value
    ensures var r := Reply(Send(c, text), k);
      && r.log[|c.log|].id == r.log[|c.log| + 1].id
      && r.log[|c.log|].sender == User && r.log[|c.log| + 1].sender == Bot
      && !UniqueIds(r.log)
  {
  }

  /** A one-letter text is not blank. */
  lemma NonBlankLetter(c: char)
    requires 'a' <= c <= 'z'
    ensures !IsBlank([c])
  {
    assert !IsSpace([c][0]);
  }

  /** The scenario behind `SecondSendCollides`: with no stored identity, "a" and then "b" sent
      within the reply delay, both replies arriving afterwards. */
  lemma DoubleSendExample(k1: PhraseIndex, k2: PhraseIndex)
    ensures var r := Run(Seed(None), [UserSends("a"), UserSends("b"), ReplyFires(k1), ReplyFires(k2)]);
      && |r.log| == 4
      && r.log[0].id == 1 && r.log[1].id == 2 && r.log[2].id == 2 && r.log[3].id == 3
  {
    NonBlankLetter('a');
    NonBlankLetter('b');
    var events := [UserSends("a"), UserSends("b"), ReplyFires(k1), ReplyFires(k2)];
    var c0 := Seed(None);
    var c1 := Send(c0, "a");
    var c2 := Send(c1, "b");
    var c3 := Reply(c2, k1);
    var c4 := Reply(c3, k2);
    assert c2.pending == [2, 3];
    assert Run(c0, events) == Run(c1, events[1..]);
    assert Run(c1, events[1..]) == Run(c2, events[2..]);
    assert Run(c2, events[2..]) == Run(c3, events[3..]);
    assert Run(c3, events[3..]) == Run(c4, []) == c4;
  }

  /** The typing slot never matches a message of the log, in any reachable state: the avatar
      whose `isTyping` is `typingMessageId === message.id` is never marked. */
  lemma TypingNeverMatches(c: Chat)
    requires Reachable(c)
    ensures forall i | 0 <= i < |c.log| :: Some(c.log[i].id) != c.typingId
  {
  }

  /** Corrected send: while a reply is outstanding the send is refused (the state is left as
      it is), instead of reusing the reserved id. */
  function GuardedSend(c: Chat, text: string): (r: Chat)
    ensures c.pending != [] ==> r == c
    ensures c.pending == [] ==> r == Send(c, text)
  {
    if c.pending != [] then c else Send(c, text)
  }

  function GuardedRun(c: Chat, events: seq<Event>): Chat
    decreases |events|
  {
    if events == [] then c
    else
      var next := match events[0]
        case UserSends(text) => GuardedSend(c, text)
        case ReplyFires(k) => Reply(c, k);
      GuardedRun(next, events[1..])
  }

  /** With the guard, ids stay unique and senders alternate under every interleaving of sends
      and replies, not only under one-turn-at-a-time use. */
  lemma {:induction false} GuardedRunKeepsIds(c: Chat, events: seq<Event>)
    requires Idle(c) || Awaiting(c)
    ensures var r := GuardedRun(c, events);
      (Idle(r) || Awaiting(r)) && UniqueIds(r.log) && Alternating(r.log)
    decreases |events|
  {
    if events == [] {
      assert Sequential(c.log);
    } else {
      var next := match events[0]
        case UserSends(text) => GuardedSend(c, text)
        case ReplyFires(k) => Reply(c, k);
      assert Idle(next) || Awaiting(next);
      GuardedRunKeepsIds(next, events[1..]);
    }
  }

  /** Corrected rendering of the typing indicator: while a reply is outstanding, a placeholder
      bot row carrying the reserved id follows the log, so `typingMessageId === row.id` holds
      for exactly that row. */
  function Rows(c: Chat): (rows: seq<Msg>)
    ensures c.log <= rows
    ensures c.typingId.None? ==> rows == c.log
    ensures c.typingId.Some? ==> |rows| == |c.log| + 1 && rows[|c.log|].sender == Bot
  {
    match c.typingId
    case None => c.log
    case Some(id) => c.log + [Msg(id, [], Bot)]
  }

  /** In the corrected rendering, a reachable state awaiting a reply marks exactly one row as
      typing, the last one. */
  lemma PlaceholderShowsTyping(c: Chat)
    requires Reachable(c) && c.typingId.Some?
    ensures var rows := Rows(c);
      forall i | 0 <= i < |rows| :: Some(rows[i].id) == c.typingId <==> i == |c.log|
  {
  }
}

=== FILE: classes.dfy ===
/**
 `joinClasses(...classes)`, the class-name helper defined identically in the chat and in the
 composer: it keeps the truthy arguments, in order, and joins them with single spaces.
 */
module Classes {
  import opened Text

  /** An argument as the components pass it: a class string, or a falsy value (`false` from
      `cond && "cls"`, `undefined`, `null`). */
  datatype ClassArg = Cls(name: string) | Falsy

  /** `Boolean(arg)`: the empty string is falsy as well. */
  predicate Truthy(a: ClassArg) {
    a.Cls? && a.name != []
  }

  /** `classes.filter(Boolean)`, as the strings that survive. */
  function Kept(args: seq<ClassArg>): (r: seq<string>)
    ensures |r| <= |args|
    ensures forall p | p in r :: p != []
    ensures r == [] <==> forall i | 0 <= i < |args| :: !Truthy(args[i])
  {
    if args == [] then []
    else (if Truthy(args[0]) then [args[0].name] else []) + Kept(args[1..])
  }

  /** `classes.filter(Boolean).join(' ')`. */
  function JoinClasses(args: seq<ClassArg>): (r: string)
    ensures r == [] <==> forall i | 0 <= i < |args| :: !Truthy(args[i])
  {
    var kept := Kept(args);
    JoinKeptEmpty(kept);
    Join(kept, ' ')
  }

  /** Joining class names none of which is empty gives the empty string only for no names. */
  lemma JoinKeptEmpty(kept: seq<string>)
    requires forall p | p in kept :: p != []
    ensures Join(kept, ' ') == [] <==> kept == []
  {
    if kept != [] {
      assert kept[0] in kept;
      JoinNonEmpty(kept, ' ');
    }
  }

  /** Two class strings put side by side, with one space between them unless one is empty. */
  function Glue(x: string, y: string): string {
    if x == [] then y else if y == [] then x else x + " " + y
  }

  lemma {:induction false} KeptAppend(a: seq<ClassArg>, b: seq<ClassArg>)
    ensures Kept(a + b) == Kept(a) + Kept(b)
  {
    if a != [] {
      KeptAppend(a[1..], b);
      assert (a + b)[0] == a[0];
      assert (a + b)[1..] == a[1..] + b;
      var h := if Truthy(a[0]) then [a[0].name] else [];
      calc {
        Kept(a + b);
        h + Kept(a[1..] + b);
        h + (Kept(a[1..]) + Kept(b));
        (h + Kept(a[1..])) + Kept(b);
      }
    } else {
      assert a + b == b;
    }
  }

  /** Splitting the argument list anywhere and joining the two halves' results with a space
      gives the same class string: the result depends only on the truthy arguments, in order,
      and consecutive ones are separated by exactly one space. */
  lemma JoinClassesAppend(a: seq<ClassArg>, b: seq<ClassArg>)
    ensures JoinClasses(a + b) == Glue(JoinClasses(a), JoinClasses(b))
  {
    KeptAppend(a, b);
    var ka, kb := Kept(a), Kept(b);
    if ka != [] && kb != [] {
      JoinAppend(ka, kb, ' ');
    } else if ka == [] {
      assert ka + kb == kb;
    } else {
      assert ka + kb == ka;
    }
  }

  /** A single class string passes through unchanged, and a falsy argument adds nothing. */
  lemma JoinClassesUnit(s: string, args: seq<ClassArg>)
    ensures JoinClasses([Cls(s)]) == s
    ensures JoinClasses([Falsy] + args) == JoinClasses(args)
  {
    assert ([Falsy] + args)[1..] == args;
    assert Kept([Falsy] + args) == [] + Kept(args);
    assert [] + Kept(args) == Kept(args);
  }
}

=== FILE: composer.dfy ===
/**
 The message composer (`InputChatInterface`): the draft text, its character count and per-letter
 display, the debounced "typing" flag with its timer, the send gate and the counter colour.

 `setTimeout` and `clearTimeout` are modelled by a set of live timer ids and a counter for the
 next id; the timer firing is the event `Fire(id)`. The callbacks `onSend` and `onChange` are
 recorded as notices in the order the component makes the calls.
 */
module Composer {
  import opened Optional
  import opened Text

  /** `maxChars`. */
  const MaxChars: nat := 75

  /** The input element's `maxLength`: one more than `maxChars`, so that an over-long draft can
      be shown in red. */
  const InputMaxLength: nat := MaxChars + 1

  /** `text` is `inputText`, `charCount` and `display` (`displayText`) are derived from it by
      the text effect, `timerRef` is `typingTimerRef.current`, `live` the timers scheduled and
      neither fired nor cleared, `nextTimer` the id the next `setTimeout` returns. */
  datatype Composer = Composer(
    text: string,
    charCount: nat,
    display: seq<char>,
    isTyping: bool,
    timerRef: Option<nat>,
    live: set<nat>,
    nextTimer: nat)

  /** A call the composer makes to its parent. */
  datatype Notice = SendCalled(text: string) | ChangeCalled(text: string)

  /** The state every reachable composer is in: the derived fields agree with the text, the text
      fits the input's `maxLength`, at most one timer is live and it is the one `timerRef`
      names, and the typing flag is on exactly while that timer is live. */
  ghost predicate Consistent(c: Composer) {
    && c.charCount == |c.text|
    && c.display == c.text
    && TimersTracked(c)
    && (c.isTyping <==> c.live != {})
    && (c.isTyping ==> c.text != [])
  }

  /** The text fits the input's `maxLength`, and the only timer that can be live is the one
      `timerRef` names, which was handed out before. */
  ghost predicate TimersTracked(c: Composer) {
    && |c.text| <= InputMaxLength
    && (c.timerRef.None? ==> c.live == {})
    && (c.timerRef.Some? ==> c.live <= {c.timerRef.value} && c.timerRef.value < c.nextTimer)
  }

  /** The live timers, as a count. */
  function LiveCount(c: Composer): nat {
    |c.live|
  }

  /** The text effect, run whenever `inputText` changes (and once on mount): it recomputes the
      count and the display, clears the previous timer, starts a new one and raises the typing
      flag when the text is non-empty (lowers the flag otherwise), and reports the text through
      `onChange`. */
  function TextEffect(c: Composer): (r: (Composer, seq<Notice>))
    ensures TimersTracked(c) ==> Consistent(r.0) && LiveCount(r.0) <= 1
    ensures TimersTracked(c) && c.timerRef.Some? ==> c.timerRef.value !in r.0.live
    ensures TimersTracked(c) && c.text != [] ==>
      r.0.live == {c.nextTimer} && r.0.timerRef == Some(c.nextTimer) && c.nextTimer !in c.live
    ensures TimersTracked(c) && c.text == [] ==> r.0.live == {}
    ensures r.0.text == c.text
    ensures r.0.isTyping <==> c.text != []
    ensures r.1 == [ChangeCalled(c.text)]
  {
    var cleared := if c.timerRef.Some? then c.live - {c.timerRef.value} else c.live;
    var base := c.(charCount := |c.text|, display := c.text);
    if c.text != [] then
      (base.(isTyping := true, timerRef := Some(c.nextTimer), live := cleared + {c.nextTimer},
             nextTimer := c.nextTimer + 1),
       [ChangeCalled(c.text)])
    else
      (base.(isTyping := false, live := cleared), [ChangeCalled(c.text)])
  }

  /** The composer after mounting: empty, with the mount run of the text effect. */
  function Mount(): (r: (Composer, seq<Notice>))
    ensures Consistent(r.0) && r.0.text == [] && !r.0.isTyping
    ensures r.1 == [ChangeCalled([])]
  {
    TextEffect(Composer([], 0, [], false, None, {}, 0))
  }

  /** The input element proposes a new value. One longer than `maxLength` never reaches
      `onChange`, and nothing happens; one equal to the current text is ignored by React and the
      effect does not run; any other becomes the text and runs the effect. */
  function Edit(c: Composer, proposed: string): (r: (Composer, seq<Notice>))
    ensures Consistent(c) ==> Consistent(r.0)
    ensures |proposed| > InputMaxLength || proposed == c.text ==> r == (c, [])
    ensures |proposed| <= InputMaxLength && proposed != c.text ==>
      && r.0.text == proposed
      && r.0.charCount == |proposed|
      && r.0.display == proposed
      && (r.0.isTyping <==> proposed != [])
      && (Consistent(c) ==> LiveCount(r.0) == (if proposed != [] then 1 else 0))
      && r.1 == [ChangeCalled(proposed)]
  {
    if |proposed| > InputMaxLength || proposed == c.text then (c, [])
    else TextEffect(c.(text := proposed))
  }

  /** A timer fires: if it is still live it only lowers the typing flag; a cleared timer never
      fires. */
  function Fire(c: Composer, id: nat): (r: (Composer, seq<Notice>))
    ensures Consistent(c) ==> Consistent(r.0)
    ensures r.1 == []
    ensures id in c.live ==> r.0 == c.(isTyping := false, live := c.live - {id})
    ensures id !in c.live ==> r.0 == c
  {
    if id in c.live then (c.(isTyping := false, live := c.live - {id}), []) else (c, [])
  }

  /** The timer is a debounce, not a throttle: after an edit to a non-empty text the timer
      started by the previous edit is cleared, so when it comes due it leaves the typing flag
      raised; only the timer of the latest edit can lower it. */
  lemma StaleTimerKeepsTyping(c: Composer, proposed: string)
    requires Consistent(c) && c.timerRef.Some?
    requires |proposed| <= InputMaxLength && proposed != c.text && proposed != []
    ensures var e := Edit(c, proposed).0;
      && Fire(e, c.timerRef.value).0.isTyping
      && e.timerRef.Some? && !Fire(e, e.timerRef.value).0.isTyping
  {
  }

  /** The gate of `handleSend`: the trimmed text is non-empty and the count is within
      `maxChars`. */
  predicate CanSend(c: Composer) {
    !IsBlank(c.text) && c.charCount <= MaxChars
  }

  /** The send button's `disabled` attribute. */
  predicate SendDisabled(c: Composer) {
    IsBlank(c.text) || c.charCount > MaxChars
  }

  /** `handleSend`: when the gate holds, `onSend` receives the untrimmed text, the draft, the
      display and the typing flag are reset and the timer is cleared; the text change then runs
      the effect, which reports the empty text. When the gate fails nothing happens. */
  function Submit(c: Composer): (r: (Composer, seq<Notice>))
    ensures Consistent(c) ==> Consistent(r.0)
    ensures CanSend(c) ==>
      && r.1 == [SendCalled(c.text), ChangeCalled([])]
      && r.0.text == [] && r.0.charCount == 0 && r.0.display == []
      && !r.0.isTyping
      && (Consistent(c) ==> r.0.live == {})
    ensures !CanSend(c) ==> r == (c, [])
  {
    if CanSend(c) then
      var cleared := if c.timerRef.Some? then c.live - {c.timerRef.value} else c.live;
      var reset := c.(text := [], isTyping := false, display := [], live := cleared);
      var effect := TextEffect(reset);
      (effect.0, [SendCalled(c.text)] + effect.1)
    else (c, [])
  }

  /** A key press in the input. */
  datatype Key = Key(name: string, shift: bool)

  /** `handleKeyPress`: Enter without Shift submits; every other key leaves the composer to the
      input element. */
  function KeyDown(c: Composer, key: Key): (r: (Composer, seq<Notice>))
    ensures Consistent(c) ==> Consistent(r.0)
    ensures key.name == "Enter" && !key.shift ==> r == Submit(c)
    ensures key.name != "Enter" || key.shift ==> r == (c, [])
  {
    if key.name == "Enter" && !key.shift then Submit(c) else (c, [])
  }

  /** The button is disabled exactly when pressing it would do nothing. */
  lemma DisabledIffRejected(c: Composer)
    requires Consistent(c)
    ensures SendDisabled(c) <==> Submit(c).1 == []
    ensures SendDisabled(c) <==> Submit(c) == (c, [])
  {
  }

  /** At the length boundary: a non-blank draft of exactly `maxChars` characters can be sent,
      and one of `maxChars + 1`, the most the input accepts, cannot. */
  lemma LengthBoundary(c: Composer)
    requires Consistent(c) && !IsBlank(c.text)
    ensures |c.text| == MaxChars ==> CanSend(c)
    ensures |c.text| == InputMaxLength ==> !CanSend(c)
    ensures CanSend(c) <==> |c.text| <= MaxChars
  {
  }

  /** What can happen to a mounted composer. `ParentRenders` is a render of the chat, which
      passes a new `onChange` function every time and so runs the text effect again with the
      text unchanged. */
  datatype Input =
    | EditTo(proposed: string)
    | TimerFires(id: nat)
    | Press(key: Key)
    | Click
    | ParentRenders

  function Apply(c: Composer, i: Input): (r: (Composer, seq<Notice>))
    ensures Consistent(c) ==> Consistent(r.0)
    ensures Consistent(c) ==> SendsFit(r.1)
  {
    match i
    case EditTo(proposed) => Edit(c, proposed)
    case TimerFires(id) => Fire(c, id)
    case Press(key) => KeyDown(c, key)
    case Click => Submit(c)
    case ParentRenders => TextEffect(c)
  }

  /** The composer after a sequence of inputs, with every notice it made, in order. */
  function Drive(c: Composer, inputs: seq<Input>): (r: (Composer, seq<Notice>))
    ensures Consistent(c) ==> Consistent(r.0)
    decreases |inputs|
  {
    if inputs == [] then (c, [])
    else
      var first := Apply(c, inputs[0]);
      var rest := Drive(first.0, inputs[1..]);
      (rest.0, first.1 + rest.1)
  }

  /** Whatever the user does after mounting, the draft never exceeds `maxChars + 1`
      characters, at most one typing timer is live, and every text sent fits the gate: it is
      not blank and has at most `maxChars` characters. */
  lemma {:induction false} SessionInvariant(inputs: seq<Input>)
    ensures var r := Drive(Mount().0, inputs);
      && |r.0.text| <= InputMaxLength
      && LiveCount(r.0) <= 1
      && SendsFit(r.1)
  {
    SentTextsFitGate(Mount().0, inputs);
    var r := Drive(Mount().0, inputs);
    LiveAtMostOne(r.0);
  }

  lemma LiveAtMostOne(c: Composer)
    requires Consistent(c)
    ensures LiveCount(c) <= 1
  {
    if c.timerRef.Some? {
      var t := c.timerRef.value;
      if c.live != {} {
        assert c.live == {t};
      }
    }
  }

  /** Every text passed to `onSend` is non-blank and at most `maxChars` long. */
  ghost predicate SendsFit(notices: seq<Notice>) {
    forall i | 0 <= i < |notices| ::
      notices[i].SendCalled? ==> !IsBlank(notices[i].text) && |notices[i].text| <= MaxChars
  }

  lemma {:induction false} SentTextsFitGate(c: Composer, inputs: seq<Input>)
    requires Consistent(c)
    ensures SendsFit(Drive(c, inputs).1)
    decreases |inputs|
  {
    if inputs != [] {
      var first := Apply(c, inputs[0]);
      SentTextsFitGate(first.0, inputs[1..]);
      var rest := Drive(first.0, inputs[1..]);
      assert Drive(c, inputs).1 == first.1 + rest.1;
      forall i | 0 <= i < |first.1 + rest.1|
        ensures var n := (first.1 + rest.1)[i];
          n.SendCalled? ==> !IsBlank(n.text) && |n.text| <= MaxChars
      {
        if i >= |first.1| {
          assert (first.1 + rest.1)[i] == rest.1[i - |first.1|];
        }
      }
    }
  }

  /** The colour of the character counter. */
  datatype Band = Gray | Yellow | Orange | Red

  function BandRank(b: Band): nat {
    match b
    case Gray => 0
    case Yellow => 1
    case Orange => 2
    case Red => 3
  }

  /** The counter's colour: red above `maxChars`, else orange above `maxChars * 0.8` (60), else
      yellow above `maxChars * 0.6` (45), else gray. Both products are exact in floating point,
      so for an integer count they are the integer thresholds 60 and 45. */
  function CounterBand(count: int): (b: Band)
    ensures b == Red <==> count > MaxChars
    ensures b == Orange <==> 60 < count <= MaxChars
    ensures b == Yellow <==> 45 < count <= 60
    ensures b == Gray <==> count <= 45
  {
    if count > MaxChars then Red
    else if count > 60 then Orange
    else if count > 45 then Yellow
    else Gray
  }

  /** The colour never gets cooler as the count grows. */
  lemma BandMonotone(a: int, b: int)
    requires a <= b
    ensures BandRank(CounterBand(a)) <= BandRank(CounterBand(b))
  {
  }

  /** For a non-blank draft the counter is red exactly when the send button is disabled, and in
      a reachable composer that happens only at the input's limit of `maxChars + 1`. */
  lemma RedIffOverLimit(c: Composer)
    requires Consistent(c) && !IsBlank(c.text)
    ensures CounterBand(c.charCount) == Red <==> SendDisabled(c)
    ensures CounterBand(c.charCount) == Red <==> |c.text| == InputMaxLength
  {
  }
}

=== FILE: greeting.dfy ===
/**
 The hour-of-day greetings of the sign-up form and of the profile dialog. `new Date().getHours()`
 becomes the parameter `hour`, which the platform keeps in 0..23.
 */
module Greeting {

  /** The sign-up form's three parts of the day. */
  datatype FormPart = FormMorning | FormAfternoon | FormNight

  /** The sign-up form's mount effect: [5, 12) is morning, [12, 18) afternoon, every other
      hour night. */
  function FormPartOf(hour: int): (p: FormPart)
    ensures p == FormMorning <==> 5 <= hour < 12
    ensures p == FormAfternoon <==> 12 <= hour < 18
    ensures p == FormNight <==> hour < 5 || 18 <= hour
  {
    if hour >= 5 && hour < 12 then FormMorning
    else if hour >= 12 && hour < 18 then FormAfternoon
    else FormNight
  }

  function FormGreeting(p: FormPart): string {
    match p
    case FormMorning => "\U{2600}\U{FE0F} Bom dia! Pronto para uma conversa?"
    case FormAfternoon => "\U{1F44B} Boa tarde! Que tal batermos um papo?"
    case FormNight => "\U{1F319} Boa noite! Ainda bem que voc\U{EA} apareceu!"
  }

  /** The profile dialog's four parts of the day. */
  datatype ProfilePart = ProfileMorning | ProfileAfternoon | ProfileEvening | ProfileNight

  /** The profile dialog's mount effect: [5, 12) morning, [12, 17) afternoon, [17, 21) evening,
      every other hour night. */
  function ProfilePartOf(hour: int): (p: ProfilePart)
    ensures p == ProfileMorning <==> 5 <= hour < 12
    ensures p == ProfileAfternoon <==> 12 <= hour < 17
    ensures p == ProfileEvening <==> 17 <= hour < 21
    ensures p == ProfileNight <==> hour < 5 || 21 <= hour
  {
    if hour >= 5 && hour < 12 then ProfileMorning
    else if hour >= 12 && hour < 17 then ProfileAfternoon
    else if hour >= 17 && hour < 21 then ProfileEvening
    else ProfileNight
  }

  function ProfileGreeting(p: ProfilePart): string {
    match p
    case ProfileMorning => "Good morning \U{2600}\U{FE0F}"
    case ProfileAfternoon => "Good afternoon \U{26C5}"
    case ProfileEvening => "Good evening \U{1F305}"
    case ProfileNight => "Good night \U{1F319}"
  }

  /** The two components agree on the morning and disagree from 17:00 to 20:59: at 17 the form
      still says afternoon where the profile says evening, and from 18 to 20 the form says night
      where the profile says evening. At every other hour both name the same part of the day. */
  lemma PartsAgreeExceptEvening(hour: int)
    requires 0 <= hour < 24
    ensures FormPartOf(hour) == FormMorning <==> ProfilePartOf(hour) == ProfileMorning
    ensures FormPartOf(hour) == FormAfternoon <==>
      ProfilePartOf(hour) == ProfileAfternoon || hour == 17
    ensures FormPartOf(hour) == FormNight <==>
      ProfilePartOf(hour) == ProfileNight || 18 <= hour < 21
    ensures ProfilePartOf(hour) == ProfileEvening <==> 17 <= hour < 21
  {
  }

  /** Both partitions are monotone along the day from 05:00: a later hour never falls in an
      earlier part. */
  lemma PartsFollowTheDay(h1: int, h2: int)
    requires 5 <= h1 <= h2 < 24
    ensures FormRank(FormPartOf(h1)) <= FormRank(FormPartOf(h2))
    ensures ProfileRank(ProfilePartOf(h1)) <= ProfileRank(ProfilePartOf(h2))
  {
  }

  function FormRank(p: FormPart): nat {
    match p
    case FormMorning => 0
    case FormAfternoon => 1
    case FormNight => 2
  }

  function ProfileRank(p: ProfilePart): nat {
    match p
    case ProfileMorning => 0
    case ProfileAfternoon => 1
    case ProfileEvening => 2
    case ProfileNight => 3
  }
}

=== FILE: identity.dfy ===
/** The identity the sign-up form collects and keeps in `localStorage` under `userInfo`; the
    chat reads it back to seed its greeting and to derive the avatar initials. */
module Identity {

  datatype UserInfo = UserInfo(name: string, email: string)

  /** Who wrote a message: `'user'` or `'bot'`. */
  datatype Sender = User | Bot
}

=== FILE: initials.dfy ===
/**
 The two avatar-initials algorithms: the chat header's `getUserInitials` (first letters of up
 to two words, `'U'` without a name) and the profile dialog's (first and last word, padded to
 two letters, a silhouette without a name).
 */
module Initials {
  import opened Optional
  import opened Text

  /** `pieces.map(w => w[0]).join('')`: an empty piece's `w[0]` is `undefined`, which `join`
      renders as nothing, so only non-empty pieces contribute their first character. */
  function Heads(pieces: seq<string>): string
  {
    if pieces == [] then []
    else (if pieces[0] == [] then [] else [pieces[0][0]]) + Heads(pieces[1..])
  }

  /** The characters of `s` that begin a word, a word being a maximal run of characters other
      than `' '`; `atStart` says whether the position before `s` counts as a word boundary. */
  function WordStarts(s: string, atStart: bool): string
  {
    if s == [] then []
    else (if s[0] != ' ' && atStart then [s[0]] else []) + WordStarts(s[1..], s[0] == ' ')
  }

  /** The first characters of the non-empty pieces of `split(' ')` are exactly the word-start
      characters, in order; dropping the first piece drops the word start at position 0. */
  lemma {:induction false} HeadsOfSplit(s: string)
    ensures Heads(Split(s, ' ')) == WordStarts(s, true)
    ensures Heads(Split(s, ' ')[1..]) == WordStarts(s, false)
  {
    if s != [] {
      var rest := Split(s[1..], ' ');
      HeadsOfSplit(s[1..]);
      if s[0] == ' ' {
        var r := [[]] + rest;
        assert Split(s, ' ') == r;
        assert r[1..] == rest;
        assert Heads(r) == [] + Heads(rest);
      } else {
        var r := [[s[0]] + rest[0]] + rest[1..];
        assert Split(s, ' ') == r;
        assert r[1..] == rest[1..];
        assert Heads(r) == [s[0]] + Heads(rest[1..]);
      }
    }
  }

  /** The chat header's `getUserInitials`: `'U'` when there is no name (null, undefined or the
      empty string); otherwise the upper-cased first characters of the non-empty words of
      `name.split(' ')`, at most two of them. A name of spaces only has no words and yields the
      empty string, not `'U'`. */
  function ChatInitials(name: Option<string>): (r: string)
    ensures name.None? || name.value == [] ==> r == "U"
    ensures name.Some? && name.value != [] ==>
      var starts := WordStarts(name.value, true);
      && |r| == (if |starts| < 2 then |starts| else 2)
      && forall k | 0 <= k < |r| :: r[k] == UpperChar(starts[k])
  {
    if name.None? || name.value == [] then "U"
    else
      HeadsOfSplit(name.value);
      Take(Upper(Heads(Split(name.value, ' '))), 2)
  }

  /** The silhouette the profile dialog shows without a name. */
  const Silhouette: string := "\U{1F464}"

  /** The profile avatar: its text, or the `TypeError` the computation throws. */
  datatype Avatar = Shown(text: string) | Throws

  /** `word[0]`: the first character, or `undefined` for the empty string. */
  function FirstChar(word: string): Option<char> {
    if word == [] then None else Some(word[0])
  }

  /** The string `+` makes of a character or of `undefined`. */
  function Stringify(c: Option<char>): string {
    match c
    case None => "undefined"
    case Some(ch) => [ch]
  }

  /** The profile dialog's `getUserInitials`: the silhouette when there is no name; otherwise,
      over the pieces of `name.trim().split(' ')`, the first piece's first character followed by
      the last piece's first character when there are several pieces, upper-cased, cut to two
      and padded to two with the first character. The `names.length === 0` test can never
      succeed, since `split` always returns at least one piece, and is not modelled. A name of
      whitespace only leaves the first character `undefined`, and upper-casing it for the
      `padEnd` argument throws. */
  function ProfileInitials(name: Option<string>): (r: Avatar)
    ensures name.None? || name.value == [] ==> r == Shown(Silhouette)
    ensures r.Throws? <==> name.Some? && name.value != [] && AllSpace(name.value)
    ensures r.Shown? && name.Some? && name.value != [] ==> |r.text| == 2
  {
    if name.None? || name.value == [] then Shown(Silhouette)
    else
      var t := Trim(name.value);
      var names := Split(t, ' ');
      var first := FirstChar(names[0]);
      var last := if |names| > 1 then Stringify(FirstChar(names[|names| - 1])) else "";
      match first
      case None =>
        assert t == [] by {
          if t != [] {
            SplitFirst(t, ' ');
          }
        }
        Throws
      case Some(f) =>
        assert t != [];
        Shown(PadEnd(Take(Upper(Stringify(first) + last), 2), 2, [UpperChar(f)]))
  }

  /** A trimmed name without a space is one word: its upper-cased first character, twice. */
  lemma ProfileInitialsOneWord(name: string)
    requires !AllSpace(name)
    requires ' ' !in Trim(name)
    ensures var t := Trim(name);
      t != [] && ProfileInitials(Some(name)) == Shown([UpperChar(t[0]), UpperChar(t[0])])
  {
    var t := Trim(name);
    SplitFree(t, ' ');
    var u := UpperChar(t[0]);
    assert Upper([t[0]] + "") == [u];
    assert PadEnd([u], 2, [u]) == [u, u];
  }

  /** A trimmed name with a space: the upper-cased first character of the name followed by
      that of its last word, the text after its last space. */
  lemma ProfileInitialsManyWords(name: string, k: nat)
    requires var t := Trim(name); 0 < k <= |t| && t[k - 1] == ' ' && ' ' !in t[k..]
    ensures var t := Trim(name);
      k < |t| && ProfileInitials(Some(name)) == Shown([UpperChar(t[0]), UpperChar(t[k])])
  {
    var t := Trim(name);
    assert name != [];
    SplitLast(t, ' ', k);
    SplitFirst(t, ' ');
    var names := Split(t, ' ');
    assert names[|names| - 1] == t[k..];
    assert k < |t|;
    var pair := [t[0]] + [t[k]];
    assert Upper(pair) == [UpperChar(t[0]), UpperChar(t[k])];
  }

  /** A string with a character other than a space has a word start. */
  lemma {:induction false} WordStartsNonEmpty(s: string, i: nat)
    requires i < |s| && s[i] != ' '
    ensures WordStarts(s, true) != []
  {
    if s[0] == ' ' {
      WordStartsNonEmpty(s[1..], i - 1);
    }
  }
}

=== FILE: optional.dfy ===
/** A general-purpose Option, used for values the UI keeps as `null` until set. */
module Optional {

  datatype Option<+T> = None | Some(value: T)
}

=== FILE: text.dfy ===
/**
 The JavaScript string operations the chat components rely on: `trim`, `split(' ')`,
 `join`, `toUpperCase`, `slice(0, n)` and `padEnd`. A `char` stands for one character of a
 JavaScript string; UTF-16 surrogate pairs are not distinguished.
 */
module Text {

  /** The characters JavaScript's `String.prototype.trim` removes and the regular-expression
      class `\s` matches: the WhiteSpace and LineTerminator productions of ECMAScript. */
  predicate IsSpace(c: char) {
    var n := c as int;
    n == 0x09 || n == 0x0A || n == 0x0B || n == 0x0C || n == 0x0D || n == 0x20
    || n == 0xA0 || n == 0x1680 || (0x2000 <= n <= 0x200A) || n == 0x2028 || n == 0x2029
    || n == 0x202F || n == 0x205F || n == 0x3000 || n == 0xFEFF
  }

  predicate AllSpace(s: string) {
    forall k | 0 <= k < |s| :: IsSpace(s[k])
  }

  /** The number of leading whitespace characters of `s`: where `s.trimStart()` begins. */
  function Lead(s: string): (n: nat)
    ensures n <= |s|
    ensures forall k | 0 <= k < n :: IsSpace(s[k])
    ensures n < |s| ==> !IsSpace(s[n])
  {
    if s == [] || !IsSpace(s[0]) then 0 else 1 + Lead(s[1..])
  }

  /** The position just after the last non-whitespace character of `s`: where `s.trimEnd()`
      ends. */
  function End(s: string): (n: nat)
    ensures n <= |s|
    ensures forall k | n <= k < |s| :: IsSpace(s[k])
    ensures n > 0 ==> !IsSpace(s[n - 1])
  {
    if s == [] || !IsSpace(s[|s| - 1]) then |s| else End(s[..|s| - 1])
  }

  /** `s.trim()`: `s` without its leading and trailing whitespace. */
  function Trim(s: string): (r: string)
    ensures var i := Lead(s);
      && i + |r| <= |s|
      && r == s[i..i + |r|]
      && (forall k | 0 <= k < i :: IsSpace(s[k]))
      && (forall k | i + |r| <= k < |s| :: IsSpace(s[k]))
    ensures r != [] ==> !IsSpace(r[0]) && !IsSpace(r[|r| - 1])
    ensures r == [] <==> AllSpace(s)
  {
    var i, j := Lead(s), End(s);
    if j <= i then
      assert forall k | 0 <= k < |s| :: IsSpace(s[k]) by {
        forall k | 0 <= k < |s| ensures IsSpace(s[k]) {
          if k >= i { assert k >= j; }
        }
      }
      []
    else
      assert i < |s| && !IsSpace(s[i]);
      s[i..j]
  }

  /** JavaScript's `s.trim() === ""` (equivalently, `!s.trim()`). */
  predicate IsBlank(s: string) {
    Trim(s) == []
  }

  /** `s.split(sep)` for a one-character separator: the maximal separator-free pieces, in
      order, including empty pieces between adjacent separators and at either end. */
  function Split(s: string, sep: char): (r: seq<string>)
    ensures |r| >= 1
    ensures forall p | p in r :: sep !in p
  {
    if s == [] then [[]]
    else
      var rest := Split(s[1..], sep);
      if s[0] == sep then [[]] + rest else [[s[0]] + rest[0]] + rest[1..]
  }

  /** `pieces.join(sep)`; the empty array joins to the empty string. */
  function Join(pieces: seq<string>, sep: char): string
  {
    if pieces == [] then []
    else if |pieces| == 1 then pieces[0]
    else pieces[0] + [sep] + Join(pieces[1..], sep)
  }

  /** Joining the pieces of a split with the same separator gives back the original string. */
  lemma {:induction false} JoinSplit(s: string, sep: char)
    ensures Join(Split(s, sep), sep) == s
  {
    if s != [] {
      var rest := Split(s[1..], sep);
      JoinSplit(s[1..], sep);
      if s[0] == sep {
        assert Split(s, sep) == [[]] + rest;
      } else {
        var r := Split(s, sep);
        assert r == [[s[0]] + rest[0]] + rest[1..];
        if |rest| > 1 {
          assert Join(rest, sep) == rest[0] + [sep] + Join(rest[1..], sep);
          assert r[1..] == rest[1..];
        }
      }
    }
  }

  /** Splitting a join of separator-free pieces gives the pieces back. */
  lemma {:induction false} SplitJoin(pieces: seq<string>, sep: char)
    requires |pieces| >= 1
    requires forall p | p in pieces :: sep !in p
    ensures Split(Join(pieces, sep), sep) == pieces
  {
    if |pieces| == 1 {
      SplitFree(pieces[0], sep);
    } else {
      var tail := Join(pieces[1..], sep);
      SplitJoin(pieces[1..], sep);
      SplitPrefix(pieces[0], sep, tail);
      assert Join(pieces, sep) == pieces[0] + ([sep] + tail);
      assert pieces == [pieces[0]] + pieces[1..];
    }
  }

  /** A separator-free string splits into itself alone. */
  lemma {:induction false} SplitFree(s: string, sep: char)
    requires sep !in s
    ensures Split(s, sep) == [s]
  {
    if s != [] {
      SplitFree(s[1..], sep);
      assert [s[0]] + s[1..] == s;
    }
  }

  /** A separator-free prefix followed by a separator becomes the first piece. */
  lemma {:induction false} SplitPrefix(w: string, sep: char, t: string)
    requires sep !in w
    ensures Split(w + ([sep] + t), sep) == [w] + Split(t, sep)
  {
    if w == [] {
      assert w + ([sep] + t) == [sep] + t;
      assert ([sep] + t)[1..] == t;
    } else {
      var s := w + ([sep] + t);
      assert s[1..] == w[1..] + ([sep] + t);
      SplitPrefix(w[1..], sep, t);
      assert [w[0]] + w[1..] == w;
    }
  }

  /** Exactly the separator-free strings split into a single piece. */
  lemma {:induction false} SplitSingle(s: string, sep: char)
    ensures |Split(s, sep)| == 1 <==> sep !in s
  {
    if sep !in s {
      SplitFree(s, sep);
    } else if s != [] && s[0] != sep {
      SplitSingle(s[1..], sep);
    }
  }

  /** The last piece of a split is the text after the last separator. */
  lemma {:induction false} SplitLast(s: string, sep: char, k: nat)
    requires 0 < k <= |s| && s[k - 1] == sep && sep !in s[k..]
    ensures var r := Split(s, sep); |r| >= 2 && r[|r| - 1] == s[k..]
  {
    var rest := Split(s[1..], sep);
    if k == 1 {
      SplitFree(s[1..], sep);
    } else {
      assert s[1..][k - 1..] == s[k..];
      SplitLast(s[1..], sep, k - 1);
    }
  }

  /** The first piece of a split of a string that does not start with the separator starts
      with that string's first character. */
  lemma SplitFirst(s: string, sep: char)
    requires s != [] && s[0] != sep
    ensures var r := Split(s, sep); r[0] != [] && r[0][0] == s[0]
  {
  }

  /** Joining two non-empty lists of pieces puts one separator between their joins. */
  lemma {:induction false} JoinAppend(x: seq<string>, y: seq<string>, sep: char)
    requires x != [] && y != []
    ensures Join(x + y, sep) == Join(x, sep) + [sep] + Join(y, sep)
  {
    if |x| == 1 {
      assert (x + y)[1..] == y;
    } else {
      JoinAppend(x[1..], y, sep);
      assert (x + y)[1..] == x[1..] + y;
    }
  }

  /** A join of pieces that are not all empty is not empty. */
  lemma JoinNonEmpty(pieces: seq<string>, sep: char)
    requires pieces != [] && pieces[0] != []
    ensures Join(pieces, sep) != []
  {
  }

  /** `toUpperCase` for one character: ASCII and Latin-1 lower-case letters map to their
      capitals; every other character is left as it is. */
  function UpperChar(c: char): (u: char)
  {
    if IsLower(c) then (c as int - 32) as char else c
  }

  /** A lower-case letter `UpperChar` maps to a capital: ASCII `a`-`z` and the Latin-1 letters
      from U+00E0 to U+00FE other than the division sign U+00F7. */
  predicate IsLower(c: char) {
    'a' <= c <= 'z' || (0xE0 <= c as int <= 0xFE && c as int != 0xF7)
  }

  /** `toUpperCase` for a whole string, one character at a time: the length is kept, a character
      that is not a lower-case letter stays as it is, and no lower-case letter is left. */
  function Upper(s: string): (r: string)
    ensures |r| == |s|
    ensures forall k | 0 <= k < |s| :: r[k] == UpperChar(s[k])
    ensures forall k | 0 <= k < |s| && !IsLower(s[k]) :: r[k] == s[k]
    ensures forall k | 0 <= k < |r| :: !IsLower(r[k])
  {
    seq(|s|, k requires 0 <= k < |s| => UpperChar(s[k]))
  }

  /** Upper-casing twice is upper-casing once. */
  lemma UpperIdempotent(s: string)
    ensures Upper(Upper(s)) == Upper(s)
  {
  }

  /** `s.slice(0, n)` for a non-negative `n`. */
  function Take(s: string, n: nat): (r: string)
    ensures |r| == if n <= |s| then n else |s|
    ensures r == s[..|r|]
  {
    if n <= |s| then s[..n] else s
  }

  /** `s.padEnd(n, fill)`: fills `s` up to length `n` with copies of `fill`, the last one cut
      short; a string already long enough, or an empty `fill`, leaves `s` as it is. */
  function PadEnd(s: string, n: nat, fill: string): (r: string)
    ensures |s| >= n || fill == [] ==> r == s
    ensures |s| < n && fill != [] ==> |r| == n
    ensures r[..|s|] == s
    ensures forall k | |s| <= k < |r| :: r[k] == fill[(k - |s|) % |fill|]
  {
    if |s| >= n || fill == [] then s
    else s + seq(n - |s|, k requires 0 <= k < n - |s| => fill[k % |fill|])
  }
}

=== FILE: user_form.dfy ===
/**
 The sign-up form (`UserInfoForm`): the name and e-mail validators, the per-field error
 messages, the submit button's gate, and the submit lifecycle that ends with the identity
 written to `localStorage`.

 The two delays of `handleSubmit` (the awaited 1000 ms and the 1500 ms before persisting) are the
 events `DelayEnds` and `PersistFires`; `localStorage` is the field `stored`.
 */
module UserForm {
  import opened Optional
  import opened Text
  import opened Identity
  import Initials

  /** `validateName`: at least two characters once trimmed. */
  predicate ValidName(name: string) {
    |Trim(name)| >= 2
  }

  /** A name is valid exactly when it holds two non-whitespace characters, anywhere. */
  lemma ValidNameIff(name: string)
    ensures ValidName(name) <==>
      exists i, j | 0 <= i < j < |name| :: !IsSpace(name[i]) && !IsSpace(name[j])
  {
    var t := Trim(name);
    var i0 := Lead(name);
    if ValidName(name) {
      assert t[0] == name[i0] && t[|t| - 1] == name[i0 + |t| - 1];
      assert !IsSpace(name[i0]) && !IsSpace(name[i0 + |t| - 1]);
    }
    if exists i, j | 0 <= i < j < |name| :: !IsSpace(name[i]) && !IsSpace(name[j]) {
      var i, j :| 0 <= i < j < |name| && !IsSpace(name[i]) && !IsSpace(name[j]);
      assert i0 <= i;
      assert j < i0 + |t|;
    }
  }

  /** A character `[^\s@]` accepts. */
  predicate PartChar(c: char) {
    !IsSpace(c) && c != '@'
  }

  /** A string `[^\s@]+` accepts. */
  predicate Part(s: string) {
    |s| > 0 && forall k | 0 <= k < |s| :: PartChar(s[k])
  }

  /** The language of `/^[^\s@]+@[^\s@]+\.[^\s@]+$/`: a non-empty part, `@`, a non-empty part,
      `.`, a non-empty part, where no part holds whitespace or `@`. */
  ghost predicate MatchesEmailPattern(s: string) {
    exists i, j | 0 < i && i + 1 < j && j + 1 < |s| ::
      && s[i] == '@' && s[j] == '.'
      && Part(s[..i]) && Part(s[i + 1..j]) && Part(s[j + 1..])
  }

  /** The position of the first `c` in `s`, or `|s|` when there is none. */
  function IndexOf(s: string, c: char): (i: nat)
    ensures i <= |s|
    ensures i < |s| ==> s[i] == c
    ensures forall k | 0 <= k < i :: s[k] != c
  {
    if s == [] || s[0] == c then 0 else 1 + IndexOf(s[1..], c)
  }

  /** `validateEmail`, as a direct check: no whitespace anywhere; exactly one `@`, with text
      before it; and after it a `.` with text on both sides. */
  predicate ValidEmail(s: string) {
    var at := IndexOf(s, '@');
    && (forall k | 0 <= k < |s| :: !IsSpace(s[k]))
    && 0 < at < |s|
    && (forall k | at < k < |s| :: s[k] != '@')
    && exists k | at + 1 < k < |s| - 1 :: s[k] == '.'
  }

  /** The direct check accepts exactly the strings the regular expression matches. */
  lemma EmailPatternIff(s: string)
    ensures ValidEmail(s) <==> MatchesEmailPattern(s)
  {
    if ValidEmail(s) {
      ValidEmailMatches(s);
    }
    if MatchesEmailPattern(s) {
      var i, j :| && 0 < i && i + 1 < j && j + 1 < |s|
                  && s[i] == '@' && s[j] == '.'
                  && Part(s[..i]) && Part(s[i + 1..j]) && Part(s[j + 1..]);
      MatchIsValidEmail(s, i, j);
    }
  }

  lemma ValidEmailMatches(s: string)
    requires ValidEmail(s)
    ensures MatchesEmailPattern(s)
  {
    var at := IndexOf(s, '@');
    var dot :| at + 1 < dot < |s| - 1 && s[dot] == '.';
    assert Part(s[..at]);
    assert Part(s[at + 1..dot]);
    assert Part(s[dot + 1..]);
  }

  lemma MatchIsValidEmail(s: string, i: nat, j: nat)
    requires 0 < i && i + 1 < j && j + 1 < |s|
    requires s[i] == '@' && s[j] == '.'
    requires Part(s[..i]) && Part(s[i + 1..j]) && Part(s[j + 1..])
    ensures ValidEmail(s)
  {
    forall k | 0 <= k < |s| ensures PartChar(s[k]) || k == i || k == j {
      if k < i {
        assert s[k] == s[..i][k];
      } else if i < k < j {
        assert s[k] == s[i + 1..j][k - i - 1];
      } else if j < k {
        assert s[k] == s[j + 1..][k - j - 1];
      }
    }
    forall k | 0 <= k < i ensures s[k] != '@' {
      assert s[k] == s[..i][k];
    }
    assert IndexOf(s, '@') == i;
  }

  /** The messages the error effect shows. */
  const NameTooShort: string := "Ops! Nome muito curto"
  const EmailLooksOff: string := "Hmm... Este email parece diferente"

  datatype Errors = Errors(name: string, email: string)

  /** The error effect, run whenever the fields change: a field shows its message exactly when
      it is non-empty and fails its validator; an empty field never shows one. */
  function FieldErrors(info: UserInfo): (e: Errors)
    ensures e.name != [] <==> info.name != [] && !ValidName(info.name)
    ensures e.email != [] <==> info.email != [] && !ValidEmail(info.email)
    ensures e.name == [] || e.name == NameTooShort
    ensures e.email == [] || e.email == EmailLooksOff
  {
    Errors(
      if info.name != [] && !ValidName(info.name) then NameTooShort else [],
      if info.email != [] && !ValidEmail(info.email) then EmailLooksOff else [])
  }

  /** `fields` are the inputs; `awaiting` the identities whose submit is in its awaited delay
      and `persisting` those waiting for the persist timer, each as captured when the submit
      began; `stored` is what `localStorage` holds under `userInfo`; `handedOver` is what the
      form passes to `onSubmit` once it has given way to the chat. */
  datatype Form = Form(
    fields: UserInfo,
    loading: bool,
    success: bool,
    submitted: bool,
    awaiting: seq<UserInfo>,
    persisting: seq<UserInfo>,
    stored: Option<UserInfo>,
    handedOver: Option<UserInfo>)

  /** Both fields pass their validators. */
  predicate Valid(info: UserInfo) {
    ValidName(info.name) && ValidEmail(info.email)
  }

  /** The submit button's `disabled` attribute. */
  predicate ButtonDisabled(f: Form) {
    f.loading || !ValidEmail(f.fields.email) || !ValidName(f.fields.name)
  }

  /** `handleSubmit`: unless both fields are valid it returns at once and nothing changes;
      otherwise it raises the loading flag and starts the awaited delay with the identity as it
      is now. */
  function HandleSubmit(f: Form): (r: Form)
    ensures !Valid(f.fields) ==> r == f
    ensures Valid(f.fields) ==>
      && r.loading
      && r.awaiting == f.awaiting + [f.fields]
      && r == f.(loading := true, awaiting := r.awaiting)
  {
    if !ValidName(f.fields.name) || !ValidEmail(f.fields.email) then f
    else f.(loading := true, awaiting := f.awaiting + [f.fields])
  }

  /** The awaited delay ends: the form reports success, the `finally` lowers the loading flag,
      and the persist timer is scheduled with the captured identity. The `catch` branch is
      unreachable, since the awaited promise never rejects. */
  function DelayEnds(f: Form): (r: Form)
    ensures f.awaiting == [] ==> r == f
    ensures f.awaiting != [] ==>
      && r.success && !r.loading
      && r.awaiting == f.awaiting[1..]
      && r.persisting == f.persisting + [f.awaiting[0]]
      && r.fields == f.fields && r.stored == f.stored
    ensures f.awaiting != [] ==>
      r == f.(success := true, loading := false, awaiting := r.awaiting, persisting := r.persisting)
  {
    if f.awaiting == [] then f
    else f.(success := true, loading := false, awaiting := f.awaiting[1..],
            persisting := f.persisting + [f.awaiting[0]])
  }

  /** The persist timer fires: the identity captured at submit time is written to storage and
      the form gives way to the chat. From that render on the form calls `onSubmit` with the
      fields as they are then, not with the identity just stored; the inputs are gone with the
      form, so every later render passes the same value. */
  function PersistFires(f: Form): (r: Form)
    ensures f.persisting == [] ==> r == f
    ensures f.persisting != [] ==>
      && r.stored == Some(f.persisting[0])
      && r.submitted
      && r.persisting == f.persisting[1..]
      && r.fields == f.fields
    ensures f.persisting != [] && !f.submitted ==> r.handedOver == Some(f.fields)
    ensures f.submitted ==> r.handedOver == f.handedOver
    ensures f.persisting != [] ==>
      r == f.(stored := r.stored, submitted := true, persisting := r.persisting,
              handedOver := r.handedOver)
  {
    if f.persisting == [] then f
    else f.(stored := Some(f.persisting[0]), submitted := true, persisting := f.persisting[1..],
            handedOver := if f.submitted then f.handedOver else Some(f.fields))
  }

  /** Corrected hand-over: the form passes `onSubmit` the identity it has just stored, the one
      validated at click time. */
  function PersistFiresStored(f: Form): (r: Form)
    ensures f.persisting == [] ==> r == f
    ensures f.persisting != [] && !f.submitted ==> r.handedOver == Some(f.persisting[0])
    ensures f.persisting != [] && !f.submitted ==> r.handedOver == r.stored
    ensures f.persisting != [] ==>
      r == PersistFires(f).(handedOver := r.handedOver)
  {
    if f.persisting == [] then f
    else f.(stored := Some(f.persisting[0]), submitted := true, persisting := f.persisting[1..],
            handedOver := if f.submitted then f.handedOver else Some(f.persisting[0]))
  }

  datatype Event = EditName(name: string) | EditEmail(email: string) | Click | Delay | Persist

  /** One event; a click on a disabled button does nothing, and once the form has given way to
      the chat its inputs and button are gone, so edits and clicks do nothing either. */
  function Step(f: Form, e: Event): Form
  {
    match e
    case EditName(name) => if f.submitted then f else f.(fields := f.fields.(name := name))
    case EditEmail(email) => if f.submitted then f else f.(fields := f.fields.(email := email))
    case Click => if f.submitted || ButtonDisabled(f) then f else HandleSubmit(f)
    case Delay => DelayEnds(f)
    case Persist => PersistFires(f)
  }

  function Run(f: Form, events: seq<Event>): Form
    decreases |events|
  {
    if events == [] then f else Run(Step(f, events[0]), events[1..])
  }

  /** Every identity captured by a submit, waiting to be stored or already stored, is valid,
      and the form has given way to the chat only after storing one. */
  ghost predicate OnlyValidCaptured(f: Form) {
    && (forall k | 0 <= k < |f.awaiting| :: Valid(f.awaiting[k]))
    && (forall k | 0 <= k < |f.persisting| :: Valid(f.persisting[k]))
    && (f.stored.Some? ==> Valid(f.stored.value))
    && (f.submitted ==> f.stored.Some?)
  }

  lemma StepStoresOnlyValid(f: Form, e: Event)
    requires OnlyValidCaptured(f)
    ensures OnlyValidCaptured(Step(f, e))
  {
    match e
    case EditName(_) =>
    case EditEmail(_) =>
    case Click =>
      if !f.submitted && !ButtonDisabled(f) {
        SubmitKeepsValid(f);
      }
    case Delay => DelayKeepsValid(f);
    case Persist => PersistKeepsValid(f);
  }

  lemma SubmitKeepsValid(f: Form)
    requires OnlyValidCaptured(f) && Valid(f.fields)
    ensures OnlyValidCaptured(HandleSubmit(f))
  {
    var r := HandleSubmit(f);
    forall k | 0 <= k < |r.awaiting| ensures Valid(r.awaiting[k]) {
      if k < |f.awaiting| { assert r.awaiting[k] == f.awaiting[k]; }
    }
  }

  lemma DelayKeepsValid(f: Form)
    requires OnlyValidCaptured(f)
    ensures OnlyValidCaptured(DelayEnds(f))
  {
    if f.awaiting != [] {
      var r := DelayEnds(f);
      assert Valid(f.awaiting[0]);
      forall k | 0 <= k < |r.persisting| ensures Valid(r.persisting[k]) {
        if k < |f.persisting| { assert r.persisting[k] == f.persisting[k]; }
      }
      forall k | 0 <= k < |r.awaiting| ensures Valid(r.awaiting[k]) {
        assert r.awaiting[k] == f.awaiting[k + 1];
      }
    }
  }

  lemma PersistKeepsValid(f: Form)
    requires OnlyValidCaptured(f)
    ensures OnlyValidCaptured(PersistFires(f))
  {
    if f.persisting != [] {
      var r := PersistFires(f);
      assert Valid(f.persisting[0]);
      forall k | 0 <= k < |r.persisting| ensures Valid(r.persisting[k]) {
        assert r.persisting[k] == f.persisting[k + 1];
      }
    }
  }

  /** Starting from storage holding nothing or a valid identity, whatever is typed, clicked or
      timed out afterwards, storage only ever receives a valid identity, even when the fields
      are edited into an invalid state while the submit is in flight: the identity stored is the
      one validated at click time. */
  lemma {:induction false} RunStoresOnlyValid(f: Form, events: seq<Event>)
    requires OnlyValidCaptured(f)
    ensures OnlyValidCaptured(Run(f, events))
    decreases |events|
  {
    if events != [] {
      StepStoresOnlyValid(f, events[0]);
      RunStoresOnlyValid(Step(f, events[0]), events[1..]);
    }
  }

  /** The hand-over as written: a valid identity is submitted, the name is cleared during the
      awaited delay, and both timers fire. Storage receives the validated identity, while
      `onSubmit` receives the edited fields, which fail validation. */
  lemma HandOverMayBeInvalid(info: UserInfo)
    requires Valid(info)
    ensures var r := Run(Form(info, false, false, false, [], [], None, None),
                         [Click, EditName([]), Delay, Persist]);
      && r.submitted
      && r.stored == Some(info)
      && r.handedOver == Some(info.(name := []))
      && !Valid(r.handedOver.value)
  {
    var events := [Click, EditName([]), Delay, Persist];
    var f0 := Form(info, false, false, false, [], [], None, None);
    var f1 := Step(f0, Click);
    var f2 := Step(f1, EditName([]));
    var f3 := Step(f2, Delay);
    var f4 := Step(f3, Persist);
    assert f1.awaiting == [info];
    assert f3.persisting == [info];
    assert Run(f0, events) == Run(f1, events[1..]);
    assert Run(f1, events[1..]) == Run(f2, events[2..]);
    assert Run(f2, events[2..]) == Run(f3, events[3..]);
    assert Run(f3, events[3..]) == Run(f4, []) == f4;
    assert !ValidName([]);
  }

  /** One event with the corrected hand-over. */
  function CorrectedStep(f: Form, e: Event): Form
  {
    match e
    case Persist => PersistFiresStored(f)
    case _ => Step(f, e)
  }

  function CorrectedRun(f: Form, events: seq<Event>): Form
    decreases |events|
  {
    if events == [] then f else CorrectedRun(CorrectedStep(f, events[0]), events[1..])
  }

  /** Everything captured, stored or handed over is valid. */
  ghost predicate OnlyValidHandedOver(f: Form) {
    OnlyValidCaptured(f) && (f.handedOver.Some? ==> Valid(f.handedOver.value))
  }

  lemma CorrectedStepHandsOverValid(f: Form, e: Event)
    requires OnlyValidHandedOver(f)
    ensures OnlyValidHandedOver(CorrectedStep(f, e))
  {
    StepStoresOnlyValid(f, e);
    if e.Persist? && f.persisting != [] {
      var next := PersistFiresStored(f);
      PersistKeepsValid(f);
      assert next == PersistFires(f).(handedOver := next.handedOver);
      if !f.submitted {
        assert Valid(f.persisting[0]);
      }
    } else {
      assert Step(f, e).handedOver == f.handedOver;
    }
  }

  /** With the corrected hand-over, `onSubmit` only ever receives a valid identity, whatever is
      typed, clicked or timed out. */
  lemma {:induction false} CorrectedRunHandsOverValid(f: Form, events: seq<Event>)
    requires OnlyValidHandedOver(f)
    ensures OnlyValidHandedOver(CorrectedRun(f, events))
    decreases |events|
  {
    if events != [] {
      CorrectedStepHandsOverValid(f, events[0]);
      CorrectedRunHandsOverValid(CorrectedStep(f, events[0]), events[1..]);
    }
  }

  /** The button is enabled only when no error message is showing, so an enabled button never
      sits next to an error. */
  lemma EnabledMeansNoErrors(f: Form)
    requires !ButtonDisabled(f)
    ensures FieldErrors(f.fields) == Errors([], [])
  {
  }

  /** A name that passed validation always yields initials: the profile dialog shows two
      letters and never throws, and the chat header shows at least one letter. */
  lemma ValidNameHasInitials(name: string)
    requires ValidName(name)
    ensures Initials.ProfileInitials(Some(name)).Shown?
    ensures |Initials.ProfileInitials(Some(name)).text| == 2
    ensures Initials.ChatInitials(Some(name)) != []
  {
    ValidNameIff(name);
    var i, j :| 0 <= i < j < |name| && !IsSpace(name[i]) && !IsSpace(name[j]);
    assert name[i] != ' ';
    Initials.WordStartsNonEmpty(name, i);
  }
}
